=== FILE: README.md ===
# Touchstone viewer bookkeeping, in Dafny

This project models the bookkeeping core of the `TouchstoneViewer` window in
`TouchstoneAnalyzer.py`. The window loads Touchstone S-parameter files and
offers a checkbox per file and per S-parameter label. It then plots the
magnitude and phase of every selected label for every enabled file.

What is modelled:

- **Labels** (`labels.dfy`). The single-ended labels `S<i+1><j+1>` are
  generated in row-major order. Six mixed-mode labels map to matrix indices
  through a fixed table. The single-ended parse `int(param[1]) - 1,
  int(param[2]) - 1` reads the digits back. A rule decides which of the two
  label lists is offered: mixed mode exactly when the mode box is checked and
  the first enabled network has four ports.
- **Display names** (`file_names.dfy`). What follows the last `/` of a path
  names the file's box and prefixes its legend entries.
- **Insertion-ordered dictionaries** (`ordered_dict.dfy`). The file boxes
  and the parameter boxes are Python dicts whose iteration order matters.
  They are sequences of pairs. `Put` replaces a present key in place and
  appends a new one.
- **Networks and trace extraction** (`networks.dfy`).
  - The RF library is a parameter of the model. It loads a file, converts a
    four-port network to mixed mode, and maps a matrix entry to dB and to
    degrees.
  - The types guarantee what the library guarantees about shape: N x P x P
    data, and a four-port result from the conversion on the input's own
    frequency axis (`Conversion`), as an in-place transform of the network
    leaves its frequencies alone.
  - A label is resolved to indices through the mixed-mode table or the digit
    parse. Numpy reads the indices with its negative wrap-around, and the
    trace is the column `s[:, i, j]`.
  - Every crash of the source is an error value: the `KeyError` of the table
    lookup, the `IndexError` or `ValueError` of the digit parse, and numpy's
    `IndexError`.
- **The window** (`viewer.dfy`, class `TouchstoneViewer`).
  - Its fields are the networks by path, the mixed-mode cache, the file
    boxes, the parameter boxes and the mode box.
  - The class models `load_files`, `update_param_checkboxes`,
    `plot_s_param`, and the three checkbox events.
  - Each state-changing method is proved against a pure function of the old
    state (`LoadAll`, `ParamCheckboxesFor`, `PlotRequest`/`PlotRun`). The
    lemmas prove what the source promises about those functions.

## Model

| member | source | states |
|---|---|---|
| Labels.Decimal | TouchstoneAnalyzer.py:114 | The decimal notation an f-string gives a port number is a non-empty digit string that denotes the number (`DigitsValue`), has no leading zero, and is one character exactly when the number is below 10. |
| Labels.SingleEndedLabel | TouchstoneAnalyzer.py:114 | Defines the f-string `S{i+1}{j+1}` for zero-based (i, j). Its contract gives the shape: at least three characters, starting with `S`. |
| Labels.Rows | TouchstoneAnalyzer.py:114 | Defines the nested comprehension row by row, outer index i and inner index j. `RowsLength`, `RowsAt` and `RowsOnly` state its length and order. |
| Labels.SingleEndedLabels | TouchstoneAnalyzer.py:114 | Defines the single-ended list for a port count: all `ports` rows. The lemmas below state its properties. |
| Labels.ParseLabel | TouchstoneAnalyzer.py:159 | Defines `int(param[1]) - 1, int(param[2]) - 1`, where `None` stands for the `IndexError` of a label shorter than three characters or the `ValueError` of a non-digit. A successful parse yields indices in -1..8; -1 comes from the digit `0`. |
| Labels.UseMixedMode | TouchstoneAnalyzer.py:111 | Defines the condition of lines 111 and 142: the mode box is checked and the network has four ports. |
| Labels.OfferedLabels | TouchstoneAnalyzer.py:111-114 | Defines the label list chosen at lines 111-114, either the constant `MixedModeLabels` (line 112) or the single-ended list. It has 6 labels in mixed mode and ports * ports otherwise. |
| Labels.LabelsRepeatFromElevenPorts | TouchstoneAnalyzer.py:114 | From eleven ports on, the labels of (0, 10) and (10, 0) are both `S111`, so the list has a repeat. |
| Labels.SingleEndedRoundTrip | TouchstoneAnalyzer.py:159 | For indices below 9, the label of (i, j) is `S` and two digits and parses back to exactly (i, j). |
| Labels.SingleEndedLabelHasDigits | TouchstoneAnalyzer.py:159 | Every generated single-ended label, of any width, has digits at positions 1 and 2, so the parse never raises on it. |
| Labels.RowsLength | TouchstoneAnalyzer.py:114 | The comprehension over i, then j, yields n * ports labels for n rows. |
| Labels.RowsAt | TouchstoneAnalyzer.py:114 | Row-major order: the label of (i, j) stands at position i * ports + j. |
| Labels.RowsOnly | TouchstoneAnalyzer.py:114 | Conversely, every position k holds the label of some (i, j) with k == i * ports + j. |
| Labels.SingleEndedLabelsParse | TouchstoneAnalyzer.py:114 | For at most nine ports the list has ports * ports labels. Each names port numbers 1..ports and parses back to the (i, j) of its position. |
| Labels.SingleEndedLabelsDistinct | TouchstoneAnalyzer.py:114 | For at most nine ports no label occurs twice, so each gets its own box. |
| Labels.TenPortLabelMisparsed | TouchstoneAnalyzer.py:159 | With ten ports the label of (0, 9) is "S110", and the parse reads it as (0, 0): the round trip needs at most nine ports. |
| Labels.MixedModeKeys | TouchstoneAnalyzer.py:149-153 | The keys of the mixed-mode table are exactly the six offered mixed-mode labels. |
| Labels.MixedModeIndicesInRange | TouchstoneAnalyzer.py:149-153 | Every entry of the table names indices in 0..3 of a four-port matrix. |
| Labels.MixedModeIndicesDistinct | TouchstoneAnalyzer.py:149-153 | The six labels are distinct and map to six different index pairs. |
| Labels.MixedModeLabelsDoNotParse | TouchstoneAnalyzer.py:159 | A mixed-mode label fails the single-ended parse (position 1 is `_`). |
| Labels.SingleEndedNotMixedMode | TouchstoneAnalyzer.py:154 | No single-ended label is a key of the mixed-mode table. Every one of them parses. |
| Labels.OfferedLabelsRule | TouchstoneAnalyzer.py:111-114 | The mixed-mode list is offered if and only if the mode box is checked and the network has four ports. Otherwise the single-ended list is offered. |
| Labels.OfferedLabelsDistinct | TouchstoneAnalyzer.py:111-114 | For at most nine ports the offered list has no repeated label. |
| FileNames.DisplayName | TouchstoneAnalyzer.py:88 | Defines `path.split('/')[-1]`, which is also the legend prefix of line 139. `DisplayNameSpec` characterises it. |
| FileNames.DisplayNameSpec | TouchstoneAnalyzer.py:88 | `path.split('/')[-1]` is the longest suffix of the path without `/`: it ends the path, contains no `/`, and is either the whole path or preceded by `/`. |
| FileNames.DisplayNameOfJoin | TouchstoneAnalyzer.py:139 | The name of `dir + "/" + name` is `name`, and a bare name is its own display name. |
| OrderedDict.Put | TouchstoneAnalyzer.py:92 | `d[k] = v` replaces the value of a present key at its position and appends a new key. Keys stay distinct, `k` now maps to `v`, and every other key keeps its value. |
| OrderedDict.PutAllDistinct | TouchstoneAnalyzer.py:116-120 | Assigning entries with distinct keys, one by one, to an empty dict yields exactly those entries in order. |
| Networks.ResolveIndices | TouchstoneAnalyzer.py:149-159 | Defines the choice of indices: in mixed mode the lookup in the constant `MixedModeIndex` (lines 149-154), failing as the `KeyError`; otherwise the parse of line 159, failing as its `IndexError` or `ValueError`. Mixed-mode indices lie in 0..3 and parsed ones in -1..8. |
| Networks.TraceOf | TouchstoneAnalyzer.py:154-161 | Defines one trace: numpy indexing of the resolved (i, j), failing as the `IndexError`. Otherwise the dB magnitude and the phase of column s[:, i, j], against the frequencies in GHz. |
| Networks.ExtractTrace | TouchstoneAnalyzer.py:137-161 | Defines the trace of one label for one file: from the mixed-mode conversion when the mode applies to the file, from the network itself otherwise, named after the file. A trace carries the file's name and its label, and has one frequency, one magnitude and one phase per frequency of the file, in both modes. |
| Networks.NumpyIndex | TouchstoneAnalyzer.py:160-161 | A numpy index is valid exactly in [-n, n). A negative index counts from the end. |
| Networks.SingleEndedTrace | TouchstoneAnalyzer.py:159-161 | Outside mixed mode, the label of (i, j), for i, j below the port count (at most nine), yields the column s[:, i, j] of the network, named after the file. |
| Networks.MixedModeTrace | TouchstoneAnalyzer.py:154-156 | In mixed mode each of the six labels yields the column of the conversion at the table's (i, j), named after the file, with one magnitude and one phase per plotted frequency. |
| Networks.MixedModeLabelOutsideMixedMode | TouchstoneAnalyzer.py:159 | A mixed-mode label reaching a network the mode does not apply to fails with the parse error. |
| Networks.SingleEndedLabelInMixedMode | TouchstoneAnalyzer.py:154 | A single-ended label reaching a network in mixed mode fails the table lookup. |
| Networks.SingleEndedLabelBeyondPorts | TouchstoneAnalyzer.py:160-161 | A label for a row or column the network does not have fails with an index error. |
| Networks.OfferedLabelsExtract | TouchstoneAnalyzer.py:141-161 | Every label offered for a network's own port count yields a trace for that network, for any port count. From ten ports on, the parse yields indices in -1..8, which lie inside the matrix even where the label names other ports than intended. |
| Viewer.CheckedKeys | TouchstoneAnalyzer.py:103 | The enabled keys are exactly the keys whose box is checked. |
| Viewer.CheckedKeysInOrder | TouchstoneAnalyzer.py:123-124 | The enabled keys keep the dict's insertion order. |
| Viewer.FirstCheckedKey | TouchstoneAnalyzer.py:108 | The first enabled key is that of the earliest checked box. |
| Viewer.RebuiltBoxesFresh | TouchstoneAnalyzer.py:116-120 | Whatever the label list, the rebuilt boxes have distinct labels, and each is unchecked and shows its own label. |
| Viewer.RebuiltBoxesLabels | TouchstoneAnalyzer.py:116-120 | The labels that have a box after a rebuild are exactly those of the list. |
| Viewer.RebuildDistinctLabels | TouchstoneAnalyzer.py:116-120 | For a list without repeats, the rebuilt boxes are one unchecked box per label, in list order. |
| Viewer.ParamCheckboxesFor | TouchstoneAnalyzer.py:99-120 | Defines the parameter boxes after a rebuild: none without an enabled file, otherwise the offered labels assigned one by one, unchecked, to an emptied dict. |
| Viewer.ParamCheckboxesForSpec | TouchstoneAnalyzer.py:103-120 | With no enabled file there are no parameter boxes. Otherwise the boxes are one unchecked box per label offered for the first enabled network (at most nine ports), in order. |
| Viewer.Unseen | TouchstoneAnalyzer.py:80-82 | The paths a load adds are distinct, and are exactly those chosen that were not loaded before. |
| Viewer.FileTraces | TouchstoneAnalyzer.py:141-164 | Defines the inner loop: the traces of the selected labels for one file, in order, ended by the first failing label. |
| Viewer.AllTraces | TouchstoneAnalyzer.py:136-164 | Defines the traces of the whole request without the cache: files outer, labels inner, ended by the first failure. |
| Viewer.CacheWith | TouchstoneAnalyzer.py:144-147 | Defines one file's effect on the cache. Its contract: old entries are kept, the only new key is the file's path, and the path is present afterwards exactly when it was before or the mode applies to the file. |
| Viewer.CacheWithCoherent | TouchstoneAnalyzer.py:144-147 | Caching the conversion of a loaded network keeps every cached entry the conversion of its loaded network. |
| Viewer.PlotRun | TouchstoneAnalyzer.py:136-164 | Defines the plot loop with the cache threaded through: each file caches its conversion before its first label, and the first failure ends the run with the cache as it stands. |
| Viewer.PlotRequest | TouchstoneAnalyzer.py:122-164 | Defines the whole request: reject with no enabled file, then with no selected label, leaving the cache alone; otherwise `PlotRun`. |
| Viewer.FileTracesErrSticks | TouchstoneAnalyzer.py:141-161 | Once a label of a file fails, the file's whole list fails with that error. |
| Viewer.FileTracesAt | TouchstoneAnalyzer.py:141-164 | A successful list for one file holds one trace per selected label, trace q being label q's. |
| Viewer.FileSucceeds | TouchstoneAnalyzer.py:141-161 | A file plots without error when every selected label is offered for its own port count, for any port count. |
| Viewer.UniformRequestSucceeds | TouchstoneAnalyzer.py:136-161 | A request whose enabled files all have the same port count, with labels offered for it, plots without error. |
| Viewer.PlotRunErrSticks | TouchstoneAnalyzer.py:136-164 | Once a file fails, the whole plot run ends with that error and that cache. |
| Viewer.PlotRunTraces | TouchstoneAnalyzer.py:136-164 | The plot loop yields the traces of every enabled file with every selected label, files outer and labels inner, or the first error. |
| Viewer.PlotRunCache | TouchstoneAnalyzer.py:144-147 | Compute-if-absent: the cache stays the conversion of the loaded networks and keeps every entry. It gains entries only for plotted files the mode applies to, and holds all of them after a successful plot. |
| Viewer.LoadedPathsHaveBoxes | TouchstoneAnalyzer.py:85-92 | In a consistent registry, the paths with a file box are exactly the loaded paths. |
| Viewer.RegisterNewFile | TouchstoneAnalyzer.py:84-92 | Loading an unknown path appends its box, checked and showing the display name, at the end, and keeps the registry and the cache consistent. |
| Viewer.LoadAll | TouchstoneAnalyzer.py:80-92 | Defines the registry after the load loop: a path already loaded is skipped, and a new one gets the loader's network and a checked box showing its display name. |
| Viewer.LoadAllSpec | TouchstoneAnalyzer.py:80-92 | Loading never replaces a loaded network and loads exactly the chosen new paths. It appends one checked box per new path in first-occurrence order, and keeps the registry and the cache consistent. |
| Viewer.TouchstoneViewer.constructor | TouchstoneAnalyzer.py:70-73 | A new window has no networks, no cache, no boxes and the mode box unchecked, and is consistent. |
| Viewer.TouchstoneViewer.UpdateParamCheckboxes | TouchstoneAnalyzer.py:96-120 | The parameter boxes become those offered for the first enabled file and the mode; the window is consistent afterwards. |
| Viewer.TouchstoneViewer.RegisterFiles | TouchstoneAnalyzer.py:80-92 | The load loop leaves the networks and the file boxes as `LoadAll` describes. |
| Viewer.TouchstoneViewer.LoadFiles | TouchstoneAnalyzer.py:75-94 | An empty choice changes nothing. Otherwise the registry is updated as `LoadAll` describes and the parameter boxes are rebuilt; the window stays consistent. |
| Viewer.TouchstoneViewer.SetFileChecked | TouchstoneAnalyzer.py:90 | Only that file's box changes. A real change of state rebuilds the parameter boxes; no change leaves everything as it was. |
| Viewer.TouchstoneViewer.SetModeChecked | TouchstoneAnalyzer.py:68 | A real change of the mode box rebuilds the parameter boxes; no change leaves them alone. |
| Viewer.TouchstoneViewer.SetParamChecked | TouchstoneAnalyzer.py:116-120 | Only that parameter's box changes; the labels stay the same and nothing else reacts. |
| Viewer.TouchstoneViewer.PlotSParam | TouchstoneAnalyzer.py:122-164 | The request is rejected when no file is enabled, then when no label is selected. Otherwise the result and the cache are those of the plot run over the enabled files and selected labels, in box order. |
| Viewer.TouchstoneViewer.PlotFiles | TouchstoneAnalyzer.py:136-164 | The loop over the enabled files yields the plot run's traces and cache. |
| Viewer.TouchstoneViewer.PlotFile | TouchstoneAnalyzer.py:141-164 | The loop over the labels of one file yields that file's traces or first error. A file the mode applies to gets its conversion cached before its first label is resolved. |
| Viewer.TouchstoneViewer.CacheConversion | TouchstoneAnalyzer.py:144-147 | The conversion is computed and stored only when absent. Afterwards the cache holds the conversion of the file's network. |

## Left out

- Qt widgets are left out. This covers layout, scroll areas, the removal of old boxes (`setParent(None)`) and the status texts at lines 127 and 130. A rejected request is the error value `NoEnabledFiles` or `NoSelectedParams`.
- Matplotlib is left out: clearing the axes, titles, grids, legend strings and `canvas.draw()`. A plot request returns the list of traces it would draw; each trace keeps the display name and the label its legend entries are built from.
- The file dialog (line 76) is a parameter of `LoadFiles`. Its `*.s2p *.s4p` filter is not enforced, so any path may be chosen.
- scikit-rf's parsing (`rf.Network`), its `se2gmm` transform and the dB and phase computations are functions passed to the model, since their numeric content is a foreign call. Only their shape is modelled: N x P x P data, and four ports in and out of the conversion with the frequency axis kept.
- A file that fails to parse is left out: the loader is total, whereas scikit-rf would raise.
- The conversion at line 145 re-reads the file from disk. The model reads it through the same loader, so it assumes the file has not changed since it was loaded.
- Floating point is left out: frequencies are real numbers, and the division by 1e9 is exact real division.
- Python's `int()` also accepts non-ASCII decimal digits. The parse accepts only `0`-`9`, which is all the generated labels contain.
- A failing label raises `KeyError`, `ValueError` or `IndexError` out of the `plot_s_param` slot, so `canvas.draw()` (line 178) is never reached. With PyQt6's default handling, an exception escaping a slot ends the application. The model instead returns an error value and keeps the window alive. That state is a modelling choice, not the source's behaviour: earlier conversions stay cached, the failing file's conversion included (`PlotRun` returns the error with the cache as it stands), and later events may follow.
- Concurrency is left out; Qt delivers events one at a time.
- `tdr.py`, `tdr_2.py` and the other viewer variants are not part of this model.
- Viewer.ParamCheckboxesForSpec: states the exact box list only for at most nine ports. From eleven ports on, labels such as `S111` repeat (port 1 to 11, and port 11 to 1), as `LabelsRepeatFromElevenPorts` proves. For ten ports the labels happen to be distinct, but that is not proved. `RebuiltBoxesFresh` and `RebuiltBoxesLabels` still state what the boxes are for any port count.

Behaviour of the code that the model keeps:

- **Invalid labels.** An unknown mixed-mode label raises `KeyError` at line 154, modelled as `UnknownMixedModeLabel`. A label shorter than three characters raises `IndexError` at line 159, and one without digits at positions 1 and 2 raises `ValueError` there; both are modelled as `MalformedLabel`. Every label that reaches line 159 is generated or one of the six constants, so the shorter kind cannot occur. Indices outside the matrix raise numpy's `IndexError` at lines 160-161, modelled as `IndexOutOfRange`. A digit `0` gives the index -1, which numpy reads as the last row or column rather than rejecting.
- **Which file decides the labels.** The comment at line 107 speaks of collecting parameters across all selected files. The code offers the labels of the first enabled file only, and so does the model. `SingleEndedLabelBeyondPorts` and `UniformRequestSucceeds` state what that means when the enabled files' port counts differ.
- **Conversion input.** The conversion is reached only for four-port networks, because of the guard at line 142. `FourPortNetwork` states this in the type of `se2gmm`. The conversion transforms the freshly read network in place (lines 145-146), so its result keeps the network's frequencies (line 138), against which lines 163-164 plot it; the type `Conversion` states that too.
- **Cache key.** The cache is keyed by file path (lines 144-147).

=== FILE: file_names.dfy ===
/** The name under which a loaded file is shown: the last '/'-separated component of its path. */
module FileNames {

  /** `path.split('/')[-1]`: what follows the last '/' of `path`, or all of it when there is none. */
  function DisplayName(path: string): string
  {
    if path == [] || path[|path| - 1] == '/' then []
    else DisplayName(path[..|path| - 1]) + [path[|path| - 1]]
  }

  /**
   * The display name is the longest suffix of the path without a '/': it
   * has no '/', it ends the path, and it is either all of the path or
   * preceded by a '/'.
   */
  lemma {:induction false} DisplayNameSpec(path: string)
    ensures '/' !in DisplayName(path)
    ensures |DisplayName(path)| <= |path| && DisplayName(path) == path[|path| - |DisplayName(path)|..]
    ensures |DisplayName(path)| < |path| ==> path[|path| - |DisplayName(path)| - 1] == '/'
  {
    if path != [] && path[|path| - 1] != '/' {
      var init := path[..|path| - 1];
      var c := path[|path| - 1];
      DisplayNameSpec(init);
      var m := |DisplayName(init)|;
      assert DisplayName(path) == DisplayName(init) + [c];
      assert path[|path| - (m + 1)..] == init[|init| - m..] + [c];
      if m < |init| {
        assert path[|path| - (m + 1) - 1] == init[|init| - m - 1];
      }
    }
  }

  /** The display name of `dir + "/" + name` is `name`, and a bare name is its own display name. */
  lemma {:induction false} DisplayNameOfJoin(dir: string, name: string)
    requires '/' !in name
    ensures DisplayName(dir + "/" + name) == name
    ensures DisplayName(name) == name
  {
    BareSuffix(dir + "/", name);
    BareSuffix([], name);
    assert [] + name == name;
  }

  /** Appending a component without '/' to a path ending in '/' (or to nothing) gives that component. */
  lemma {:induction false} BareSuffix(prefix: string, name: string)
    requires prefix == [] || prefix[|prefix| - 1] == '/'
    requires '/' !in name
    ensures DisplayName(prefix + name) == name
  {
    if name == [] {
      assert prefix + name == prefix;
    } else {
      var init := name[..|name| - 1];
      BareSuffix(prefix, init);
      assert prefix + name == (prefix + init) + [name[|name| - 1]];
      assert name == init + [name[|name| - 1]];
    }
  }
}

=== FILE: labels.dfy ===
/**
 * S-parameter labels as the viewer offers them: single-ended labels
 * `S<i+1><j+1>`, the six mixed-mode labels with their fixed (i, j) table,
 * the parse of a single-ended label back to zero-based indices, and the
 * rule that chooses between the two label lists.
 */
module Labels {
  import opened Wrappers
  import opened OrderedDict

  predicate IsDigit(c: char) {
    '0' <= c <= '9'
  }

  function DigitValue(c: char): nat
    requires IsDigit(c)
  {
    c as int - '0' as int
  }

  function DigitChar(d: nat): char
    requires d < 10
  {
    ('0' as int + d) as char
  }

  /** The number a string of decimal digits denotes, most significant digit first. */
  function DigitsValue(s: string): nat
    requires forall k :: 0 <= k < |s| ==> IsDigit(s[k])
  {
    if s == [] then 0 else DigitsValue(s[..|s| - 1]) * 10 + DigitValue(s[|s| - 1])
  }

  /** Decimal notation of `n`, as an f-string writes an int: digits that denote `n`, with no leading zero. */
  function Decimal(n: nat): (s: string)
    ensures 1 <= |s|
    ensures forall k :: 0 <= k < |s| ==> IsDigit(s[k])
    ensures DigitsValue(s) == n
    ensures s[0] != '0' || n == 0
    ensures |s| == 1 <==> n < 10
  {
    if n < 10 then [DigitChar(n)] else Decimal(n / 10) + [DigitChar(n % 10)]
  }

  /** The single-ended label for zero-based row i and column j. */
  function SingleEndedLabel(i: nat, j: nat): (l: string)
    ensures |l| >= 3 && l[0] == 'S'
  {
    "S" + Decimal(i + 1) + Decimal(j + 1)
  }

  /** Row i of the label list: the labels for (i, 0) .. (i, ports - 1). */
  function Row(ports: nat, i: nat): seq<string> {
    seq(ports, j requires 0 <= j < ports => SingleEndedLabel(i, j))
  }

  /** Rows 0 .. n - 1 of the label list, one after the other. */
  function Rows(ports: nat, n: nat): seq<string> {
    if n == 0 then [] else Rows(ports, n - 1) + Row(ports, n - 1)
  }

  /** The single-ended labels for a network with `ports` ports: outer index i, inner index j. */
  function SingleEndedLabels(ports: nat): seq<string> {
    Rows(ports, ports)
  }

  /**
   * The parse `int(param[1]) - 1, int(param[2]) - 1`. None stands for the
   * exception Python raises: the `IndexError` of a label shorter than three
   * characters, or the `ValueError` of a character at position 1 or 2 that
   * is not a digit.
   */
  function ParseLabel(s: string): (r: Option<(int, int)>)
    ensures r.Some? ==> -1 <= r.value.0 <= 8 && -1 <= r.value.1 <= 8
  {
    if |s| >= 3 && IsDigit(s[1]) && IsDigit(s[2])
    then Some((DigitValue(s[1]) - 1, DigitValue(s[2]) - 1))
    else None
  }

  /** The six mixed-mode labels, in the order they are offered. */
  const MixedModeLabels: seq<string> :=
    ["S_dd11", "S_dd21", "S_cc11", "S_cc21", "S_dc11", "S_dc21"]

  /** Zero-based matrix indices of each mixed-mode label. */
  const MixedModeIndex: map<string, (nat, nat)> :=
    map["S_dd11" := (0, 0), "S_dd21" := (1, 0),
        "S_cc11" := (2, 2), "S_cc21" := (3, 2),
        "S_dc11" := (2, 0), "S_dc21" := (3, 0)]

  /** Mixed-mode labels are used only when the mode box is checked and the network has four ports. */
  predicate UseMixedMode(modeChecked: bool, ports: nat) {
    modeChecked && ports == 4
  }

  /** The label list offered for a network with `ports` ports. */
  function OfferedLabels(modeChecked: bool, ports: nat): (r: seq<string>)
    ensures |r| == if UseMixedMode(modeChecked, ports) then 6 else ports * ports
  {
    RowsLength(ports, ports);
    if UseMixedMode(modeChecked, ports) then MixedModeLabels else SingleEndedLabels(ports)
  }

  // ---------------------------------------------------------------------------
  // Properties of the single-ended labels

  /** A label with one-digit indices has the shape S<d1><d2> and parses back to (i, j). */
  lemma SingleEndedRoundTrip(i: nat, j: nat)
    requires i < 9 && j < 9
    ensures var l := SingleEndedLabel(i, j);
      |l| == 3 && l[0] == 'S' && IsDigit(l[1]) && IsDigit(l[2]) &&
      DigitValue(l[1]) == i + 1 && DigitValue(l[2]) == j + 1 &&
      ParseLabel(l) == Some((i as int, j as int))
  {
    assert Decimal(i + 1) == [DigitChar(i + 1)];
    assert Decimal(j + 1) == [DigitChar(j + 1)];
  }

  /** Every single-ended label has a digit at positions 1 and 2, so the parse always yields a pair. */
  lemma SingleEndedLabelHasDigits(i: nat, j: nat)
    ensures var l := SingleEndedLabel(i, j);
      |l| >= 3 && l[0] == 'S' && IsDigit(l[1]) && IsDigit(l[2]) && ParseLabel(l).Some?
  {
    var l := SingleEndedLabel(i, j);
    var a, b := Decimal(i + 1), Decimal(j + 1);
    assert l == "S" + a + b;
    assert l[1] == a[0];
    assert IsDigit(l[2]) by {
      if |a| == 1 { assert l[2] == b[0]; } else { assert l[2] == a[1]; }
    }
  }

  /** n rows of `ports` labels each. */
  lemma {:induction false} RowsLength(ports: nat, n: nat)
    ensures |Rows(ports, n)| == n * ports
  {
    if n > 0 {
      RowsLength(ports, n - 1);
      assert n * ports == (n - 1) * ports + ports;
    }
  }

  /** Label (i, j) stands at position i * ports + j: row-major order. */
  lemma {:induction false} RowsAt(ports: nat, n: nat, i: nat, j: nat)
    requires i < n && j < ports
    ensures i * ports + j < |Rows(ports, n)|
    ensures Rows(ports, n)[i * ports + j] == SingleEndedLabel(i, j)
  {
    var prefix := Rows(ports, n - 1);
    assert Rows(ports, n) == prefix + Row(ports, n - 1);
    RowsLength(ports, n - 1);
    if i < n - 1 {
      RowsAt(ports, n - 1, i, j);
    } else {
      assert i * ports + j == |prefix| + j;
    }
  }

  /** Every position of the label list holds the label of the (i, j) with k == i * ports + j. */
  lemma {:induction false} RowsOnly(ports: nat, n: nat, k: nat)
    requires k < |Rows(ports, n)|
    ensures exists i: nat, j: nat :: (i < n && j < ports && k == i * ports + j &&
      Rows(ports, n)[k] == SingleEndedLabel(i, j))
  {
    var prefix := Rows(ports, n - 1);
    assert Rows(ports, n) == prefix + Row(ports, n - 1);
    RowsLength(ports, n - 1);
    if k < |prefix| {
      RowsOnly(ports, n - 1, k);
      var i: nat, j: nat :| i < n - 1 && j < ports && k == i * ports + j && prefix[k] == SingleEndedLabel(i, j);
      assert Rows(ports, n)[k] == SingleEndedLabel(i, j);
    } else {
      var j: nat := k - |prefix|;
      assert Rows(ports, n)[k] == SingleEndedLabel(n - 1, j);
    }
  }

  /**
   * For at most nine ports the list has ports * ports entries; entry k is the
   * label of (i, j) with k == i * ports + j, 0 <= i, j < ports, it has the
   * shape S<d1><d2> with 1 <= d1, d2 <= ports, and it parses back to (i, j).
   */
  lemma SingleEndedLabelsParse(ports: nat, k: nat)
    requires ports <= 9 && k < |SingleEndedLabels(ports)|
    ensures |SingleEndedLabels(ports)| == ports * ports
    ensures exists i: nat, j: nat :: (i < ports && j < ports && k == i * ports + j &&
      SingleEndedLabels(ports)[k] == SingleEndedLabel(i, j) &&
      |SingleEndedLabel(i, j)| == 3 &&
      1 <= DigitValue(SingleEndedLabel(i, j)[1]) <= ports &&
      1 <= DigitValue(SingleEndedLabel(i, j)[2]) <= ports &&
      ParseLabel(SingleEndedLabels(ports)[k]) == Some((i as int, j as int)))
  {
    RowsLength(ports, ports);
    RowsOnly(ports, ports, k);
    var i: nat, j: nat :| i < ports && j < ports && k == i * ports + j &&
      SingleEndedLabels(ports)[k] == SingleEndedLabel(i, j);
    SingleEndedRoundTrip(i, j);
  }

  /** For at most nine ports no label is generated twice. */
  lemma SingleEndedLabelsDistinct(ports: nat)
    requires ports <= 9
    ensures Distinct(SingleEndedLabels(ports))
  {
    var ls := SingleEndedLabels(ports);
    forall a, b | 0 <= a < b < |ls| ensures ls[a] != ls[b] {
      RowsOnly(ports, ports, a);
      var ia: nat, ja: nat :| ia < ports && ja < ports && a == ia * ports + ja && ls[a] == SingleEndedLabel(ia, ja);
      RowsOnly(ports, ports, b);
      var ib: nat, jb: nat :| ib < ports && jb < ports && b == ib * ports + jb && ls[b] == SingleEndedLabel(ib, jb);
      SingleEndedRoundTrip(ia, ja);
      SingleEndedRoundTrip(ib, jb);
    }
  }

  /**
   * With ten ports the parse reads only the first digit of "10": the label
   * of (0, 9), "S110", parses to (0, 0). So the round trip needs ports <= 9.
   */
  lemma TenPortLabelMisparsed()
    ensures SingleEndedLabel(0, 9) == "S110"
    ensures ParseLabel(SingleEndedLabel(0, 9)) == Some((0, 0))
  {
    assert Decimal(10) == Decimal(1) + [DigitChar(0)];
  }

  /**
   * From eleven ports on, two positions of the label list hold the same
   * label: (0, 10) and (10, 0) are both written "S111".
   */
  lemma LabelsRepeatFromElevenPorts(ports: nat)
    requires ports >= 11
    ensures SingleEndedLabel(0, 10) == "S111" && SingleEndedLabel(10, 0) == "S111"
    ensures !Distinct(SingleEndedLabels(ports))
  {
    assert Decimal(11) == Decimal(1) + [DigitChar(1)];
    RowsAt(ports, ports, 0, 10);
    RowsAt(ports, ports, 10, 0);
    assert 10 < 10 * ports;
  }

  // ---------------------------------------------------------------------------
  // Properties of the mixed-mode table and of the mode rule

  /** Every mixed-mode label is a key of the table, and every key is offered. */
  lemma MixedModeKeys()
    ensures forall l :: l in MixedModeIndex <==> l in MixedModeLabels
  {
  }

  /** Every mixed-mode label resolves to indices in [0, 3]. */
  lemma MixedModeIndicesInRange()
    ensures forall l :: l in MixedModeIndex ==> MixedModeIndex[l].0 < 4 && MixedModeIndex[l].1 < 4
  {
  }

  /** The six labels resolve to six different index pairs, so they are distinct too. */
  lemma MixedModeIndicesDistinct()
    ensures forall a, b :: 0 <= a < b < |MixedModeLabels| ==>
      MixedModeLabels[a] in MixedModeIndex && MixedModeLabels[b] in MixedModeIndex &&
      MixedModeIndex[MixedModeLabels[a]] != MixedModeIndex[MixedModeLabels[b]]
    ensures Distinct(MixedModeLabels)
  {
  }

  /** No mixed-mode label survives the single-ended parse: position 1 holds '_'. */
  lemma MixedModeLabelsDoNotParse(l: string)
    requires l in MixedModeLabels
    ensures ParseLabel(l) == None
  {
  }

  /** No single-ended label is a key of the mixed-mode table. */
  lemma SingleEndedNotMixedMode(ports: nat, k: nat)
    requires k < |SingleEndedLabels(ports)|
    ensures SingleEndedLabels(ports)[k] !in MixedModeIndex
    ensures ParseLabel(SingleEndedLabels(ports)[k]).Some?
  {
    RowsOnly(ports, ports, k);
    var i: nat, j: nat :| i < ports && j < ports && k == i * ports + j &&
      SingleEndedLabels(ports)[k] == SingleEndedLabel(i, j);
    SingleEndedLabelHasDigits(i, j);
  }

  /**
   * The mixed-mode list is offered exactly when the mode box is checked and
   * the network has four ports; the single-ended list exactly otherwise.
   */
  lemma OfferedLabelsRule(modeChecked: bool, ports: nat)
    ensures OfferedLabels(modeChecked, ports) == MixedModeLabels <==> modeChecked && ports == 4
    ensures OfferedLabels(modeChecked, ports) == SingleEndedLabels(ports) <==> !(modeChecked && ports == 4)
  {
    if modeChecked && ports == 4 {
      RowsLength(4, 4);
    } else if ports > 0 {
      SingleEndedNotMixedMode(ports, 0);
      assert SingleEndedLabels(ports)[0] != MixedModeLabels[0];
    }
  }

  /** The offered labels are distinct whenever single-ended labels stay one digit wide. */
  lemma OfferedLabelsDistinct(modeChecked: bool, ports: nat)
    requires ports <= 9
    ensures Distinct(OfferedLabels(modeChecked, ports))
  {
    if UseMixedMode(modeChecked, ports) {
      MixedModeIndicesDistinct();
    } else {
      SingleEndedLabelsDistinct(ports);
    }
  }
}

=== FILE: networks.dfy ===
/**
 * Networks as the file loader hands them over, and the extraction of one
 * magnitude/phase trace: the column s[:, i, j] for the matrix indices a
 * label names.
 */
module Networks {
  import opened Wrappers
  import opened Labels
  import opened FileNames

  type Path = string

  /**
   * A loaded network: its port count, its frequencies in Hz and one
   * ports x ports matrix of entries of type C per frequency.
   */
  datatype Network<C> = Network(ports: nat, freqs: seq<real>, s: seq<seq<seq<C>>>)

  /** One matrix per frequency, each of them ports x ports. */
  predicate WellFormed<C(!new)>(n: Network<C>) {
    |n.s| == |n.freqs| &&
    forall k :: 0 <= k < |n.s| ==>
      |n.s[k]| == n.ports && forall r :: 0 <= r < n.ports ==> |n.s[k][r]| == n.ports
  }

  /** A network whose data has the shape N x P x P, as the loader produces it. */
  type WfNetwork<C(!new)> = n: Network<C> | WellFormed(n) witness Network(0, [], [])

  /** A well-formed four-port network, the only kind the mixed-mode conversion accepts and yields. */
  type FourPortNetwork<C(!new)> = n: WfNetwork<C> | n.ports == 4 witness Network(4, [], [])

  /**
   * A single-ended to mixed-mode conversion: a four-port network in, a
   * four-port network out, on the same frequency axis.
   */
  type Conversion<!C(!new)> = f: FourPortNetwork<C> -> FourPortNetwork<C> | KeepsFrequencies(f)
    ghost witness (n: FourPortNetwork<C>) => n

  /** `f` hands back every network on the frequency axis it was given. */
  ghost predicate KeepsFrequencies<C(!new)>(f: FourPortNetwork<C> -> FourPortNetwork<C>) {
    forall n: FourPortNetwork<C> :: f(n).freqs == n.freqs
  }

  /**
   * The calls into the RF library: reading a file into a network, the
   * single-ended to mixed-mode conversion of a four-port network (two
   * differential pairs), and the conversions of one matrix entry to
   * magnitude in dB and to phase in degrees.
   */
  datatype Library<!C(!new)> = Library(
    load: Path -> WfNetwork<C>,
    se2gmm: Conversion<C>,
    magDb: C -> real,
    phaseDeg: C -> real)

  /** Why a plot request produced no traces. */
  datatype PlotError =
    | NoEnabledFiles                        // no file box is checked
    | NoSelectedParams                      // no parameter box is checked
    | UnknownMixedModeLabel(param: string)  // the label is not a key of the mixed-mode table
    | MalformedLabel(param: string)         // the label has no digits at positions 1 and 2
    | IndexOutOfRange(param: string)        // the indices lie outside the network's matrix

  /** One plotted parameter of one file: x axis in GHz, magnitude in dB, phase in degrees. */
  datatype Trace = Trace(name: string, param: string, freqsGHz: seq<real>, magDb: seq<real>, phaseDeg: seq<real>)

  /** Index `i` into an axis of length n, as numpy reads it: negative indices count from the end. */
  function NumpyIndex(i: int, n: nat): (r: Option<nat>)
    ensures r.Some? <==> -(n as int) <= i < n
    ensures r.Some? ==> r.value < n && r.value as int == (if i < 0 then i + n else i)
  {
    if 0 <= i < n then Some(i) else if -(n as int) <= i < 0 then Some(i + n) else None
  }

  /** The indices a label names: through the mixed-mode table, or by parsing its digits. */
  function ResolveIndices(useMixed: bool, param: string): (r: Result<(int, int), PlotError>)
    ensures useMixed && r.Ok? ==> 0 <= r.value.0 < 4 && 0 <= r.value.1 < 4
    ensures !useMixed && r.Ok? ==> -1 <= r.value.0 <= 8 && -1 <= r.value.1 <= 8
    ensures r.Err? ==> r.error == (if useMixed then UnknownMixedModeLabel(param) else MalformedLabel(param))
  {
    MixedModeIndicesInRange();
    if useMixed then
      if param in MixedModeIndex
      then Ok((MixedModeIndex[param].0 as int, MixedModeIndex[param].1 as int))
      else Err(UnknownMixedModeLabel(param))
    else
      match ParseLabel(param)
      case Some(ij) => Ok(ij)
      case None => Err(MalformedLabel(param))
  }

  function ToGHz(freqs: seq<real>): seq<real> {
    seq(|freqs|, k requires 0 <= k < |freqs| => freqs[k] / 1000000000.0)
  }

  /** The trace of `param` read from the matrices of `m`, plotted against `freqs`. */
  function TraceOf<C(!new)>(lib: Library<C>, name: string, freqs: seq<real>, m: WfNetwork<C>, useMixed: bool, param: string)
    : Result<Trace, PlotError>
  {
    match ResolveIndices(useMixed, param)
    case Err(e) => Err(e)
    case Ok(ij) =>
      match (NumpyIndex(ij.0, m.ports), NumpyIndex(ij.1, m.ports))
      case (Some(i), Some(j)) =>
        Ok(Trace(name, param, ToGHz(freqs),
                 seq(|m.s|, k requires 0 <= k < |m.s| => lib.magDb(m.s[k][i][j])),
                 seq(|m.s|, k requires 0 <= k < |m.s| => lib.phaseDeg(m.s[k][i][j]))))
      case _ => Err(IndexOutOfRange(param))
  }

  /**
   * The trace of `param` for the file at `path`, loaded as `n`: from the
   * mixed-mode conversion of `n` when the mode applies to it, from `n`
   * itself otherwise.
   */
  function ExtractTrace<C(!new)>(lib: Library<C>, modeChecked: bool, path: Path, n: WfNetwork<C>, param: string)
    : (r: Result<Trace, PlotError>)
    ensures r.Ok? ==> r.value.name == DisplayName(path) && r.value.param == param
    ensures r.Ok? ==> |r.value.freqsGHz| == |n.freqs| && |r.value.magDb| == |n.freqs| && |r.value.phaseDeg| == |n.freqs|
  {
    var useMixed := UseMixedMode(modeChecked, n.ports);
    TraceOf(lib, DisplayName(path), n.freqs, if useMixed then lib.se2gmm(n) else n, useMixed, param)
  }

  /**
   * `t` is the column (i, j) of `m`: one entry per frequency, entry k being
   * the dB magnitude and phase of m.s[k][i][j], against `freqs` in GHz.
   */
  ghost predicate ColumnTrace<C(!new)>(t: Trace, lib: Library<C>, freqs: seq<real>, m: WfNetwork<C>, i: nat, j: nat)
    requires i < m.ports && j < m.ports
  {
    |t.freqsGHz| == |freqs| && |t.magDb| == |m.s| && |t.phaseDeg| == |m.s| &&
    (forall k :: 0 <= k < |freqs| ==> t.freqsGHz[k] == freqs[k] / 1000000000.0) &&
    (forall k :: 0 <= k < |m.s| ==>
      t.magDb[k] == lib.magDb(m.s[k][i][j]) && t.phaseDeg[k] == lib.phaseDeg(m.s[k][i][j]))
  }

  // ---------------------------------------------------------------------------
  // Which labels yield a trace, and what that trace is

  /**
   * Outside mixed mode the label of (i, j) yields the column s[:, i, j] of
   * the network itself, named after the file.
   */
  lemma SingleEndedTrace<C(!new)>(lib: Library<C>, modeChecked: bool, path: Path, n: WfNetwork<C>, i: nat, j: nat)
    requires !UseMixedMode(modeChecked, n.ports)
    requires i < n.ports <= 9 && j < n.ports
    ensures var r := ExtractTrace(lib, modeChecked, path, n, SingleEndedLabel(i, j));
      r.Ok? && r.value.name == DisplayName(path) && r.value.param == SingleEndedLabel(i, j) &&
      ColumnTrace(r.value, lib, n.freqs, n, i, j)
  {
    SingleEndedRoundTrip(i, j);
  }

  /**
   * In mixed mode each of the six labels yields the column s[:, i, j] of the
   * mixed-mode conversion, for the (i, j) of the mixed-mode table.
   */
  lemma MixedModeTrace<C(!new)>(lib: Library<C>, modeChecked: bool, path: Path, n: WfNetwork<C>, param: string)
    requires UseMixedMode(modeChecked, n.ports)
    requires param in MixedModeLabels
    ensures param in MixedModeIndex
    ensures MixedModeIndex[param].0 < 4 && MixedModeIndex[param].1 < 4
    ensures var r := ExtractTrace(lib, modeChecked, path, n, param);
      r.Ok? && r.value.name == DisplayName(path) && r.value.param == param &&
      ColumnTrace(r.value, lib, n.freqs, lib.se2gmm(n), MixedModeIndex[param].0, MixedModeIndex[param].1) &&
      |r.value.magDb| == |r.value.freqsGHz| == |r.value.phaseDeg|
  {
    MixedModeKeys();
    MixedModeIndicesInRange();
  }

  /** A mixed-mode label reaching a network the mode does not apply to fails the parse. */
  lemma MixedModeLabelOutsideMixedMode<C(!new)>(lib: Library<C>, modeChecked: bool, path: Path, n: WfNetwork<C>, param: string)
    requires !UseMixedMode(modeChecked, n.ports)
    requires param in MixedModeLabels
    ensures ExtractTrace(lib, modeChecked, path, n, param) == Err(MalformedLabel(param))
  {
    MixedModeLabelsDoNotParse(param);
  }

  /** A single-ended label reaching a network in mixed mode is not in the mixed-mode table. */
  lemma SingleEndedLabelInMixedMode<C(!new)>(lib: Library<C>, modeChecked: bool, path: Path, n: WfNetwork<C>, ports: nat, k: nat)
    requires UseMixedMode(modeChecked, n.ports)
    requires k < |SingleEndedLabels(ports)|
    ensures ExtractTrace(lib, modeChecked, path, n, SingleEndedLabels(ports)[k])
      == Err(UnknownMixedModeLabel(SingleEndedLabels(ports)[k]))
  {
    SingleEndedNotMixedMode(ports, k);
  }

  /**
   * A single-ended label generated for a bigger network names a row or column
   * the network does not have.
   */
  lemma SingleEndedLabelBeyondPorts<C(!new)>(lib: Library<C>, modeChecked: bool, path: Path, n: WfNetwork<C>, i: nat, j: nat)
    requires !UseMixedMode(modeChecked, n.ports)
    requires i < 9 && j < 9 && (n.ports <= i || n.ports <= j)
    ensures ExtractTrace(lib, modeChecked, path, n, SingleEndedLabel(i, j)) == Err(IndexOutOfRange(SingleEndedLabel(i, j)))
  {
    SingleEndedRoundTrip(i, j);
  }

  /** Every label offered for a network's own port count yields a trace for that network. */
  lemma OfferedLabelsExtract<C(!new)>(lib: Library<C>, modeChecked: bool, path: Path, n: WfNetwork<C>, param: string)
    requires param in OfferedLabels(modeChecked, n.ports)
    ensures ExtractTrace(lib, modeChecked, path, n, param).Ok?
  {
    if UseMixedMode(modeChecked, n.ports) {
      MixedModeTrace(lib, modeChecked, path, n, param);
    } else if n.ports > 9 {
      // The parse yields indices in -1..8, all inside a matrix of ten or more rows.
      var k :| 0 <= k < |SingleEndedLabels(n.ports)| && SingleEndedLabels(n.ports)[k] == param;
      SingleEndedNotMixedMode(n.ports, k);
    } else {
      var k :| 0 <= k < |SingleEndedLabels(n.ports)| && SingleEndedLabels(n.ports)[k] == param;
      SingleEndedLabelsParse(n.ports, k);
      var i: nat, j: nat :| i < n.ports && j < n.ports && k == i * n.ports + j &&
        SingleEndedLabels(n.ports)[k] == SingleEndedLabel(i, j);
      SingleEndedTrace(lib, modeChecked, path, n, i, j);
    }
  }
}

=== FILE: ordered_dict.dfy ===
/**
 * A dictionary that remembers insertion order, as Python's `dict` does.
 * It is a sequence of (key, value) pairs; assigning to a present key
 * replaces its value in place, assigning to a new key appends it.
 */
module OrderedDict {
  import opened Wrappers

  predicate Distinct<T(==)>(s: seq<T>) {
    forall i, j :: 0 <= i < j < |s| ==> s[i] != s[j]
  }

  /** The keys, in insertion order. */
  function Keys<K, V>(d: seq<(K, V)>): seq<K> {
    seq(|d|, i requires 0 <= i < |d| => d[i].0)
  }

  /** No key occurs twice, as in a dictionary built only through `Put`. */
  predicate DistinctKeys<K(==), V>(d: seq<(K, V)>) {
    forall i, j :: 0 <= i < j < |d| ==> d[i].0 != d[j].0
  }

  /** Position of the first entry with key `k`. */
  function IndexOf<K(==), V>(d: seq<(K, V)>, k: K): (i: nat)
    requires k in Keys(d)
    ensures i < |d| && d[i].0 == k
    ensures forall j :: 0 <= j < i ==> d[j].0 != k
  {
    if d[0].0 == k then 0
    else
      assert Keys(d[1..]) == Keys(d)[1..];
      1 + IndexOf(d[1..], k)
  }

  /** `d.get(k)`. */
  function Get<K(==), V>(d: seq<(K, V)>, k: K): Option<V> {
    if k in Keys(d) then Some(d[IndexOf(d, k)].1) else None
  }

  /** `d[k] = v`. */
  function Put<K(==, !new), V>(d: seq<(K, V)>, k: K, v: V): (r: seq<(K, V)>)
    ensures k in Keys(d) ==> r == d[IndexOf(d, k) := (k, v)]
    ensures k !in Keys(d) ==> r == d + [(k, v)]
    ensures Keys(r) == if k in Keys(d) then Keys(d) else Keys(d) + [k]
    ensures DistinctKeys(d) ==> DistinctKeys(r)
    ensures Get(r, k) == Some(v)
    ensures forall k' :: k' != k ==> Get(r, k') == Get(d, k')
  {
    if k in Keys(d) then
      var i := IndexOf(d, k);
      var r := d[i := (k, v)];
      assert Keys(r) == Keys(d);
      assert IndexOf(r, k) == i by { FirstIndexUnique(r, k, i); }
      assert forall k' :: k' != k && k' in Keys(d) ==> IndexOf(r, k') == IndexOf(d, k') by {
        forall k' | k' != k && k' in Keys(d) ensures IndexOf(r, k') == IndexOf(d, k') {
          FirstIndexUnique(r, k', IndexOf(d, k'));
        }
      }
      r
    else
      var r := d + [(k, v)];
      assert forall j :: 0 <= j < |d| ==> Keys(d)[j] == d[j].0;
      assert Keys(r) == Keys(d) + [k];
      assert IndexOf(r, k) == |d| by { FirstIndexUnique(r, k, |d|); }
      assert forall k' :: k' != k && k' in Keys(d) ==> IndexOf(r, k') == IndexOf(d, k') by {
        forall k' | k' != k && k' in Keys(d) ensures IndexOf(r, k') == IndexOf(d, k') {
          FirstIndexUnique(r, k', IndexOf(d, k'));
        }
      }
      r
  }

  /** The first occurrence of a key is unique. */
  lemma FirstIndexUnique<K, V>(d: seq<(K, V)>, k: K, i: nat)
    requires i < |d| && d[i].0 == k
    requires forall j :: 0 <= j < i ==> d[j].0 != k
    ensures k in Keys(d) && IndexOf(d, k) == i
  {
    assert Keys(d)[i] == k;
  }

  /** The keys after `d[k] = v` are those before, and `k`. */
  lemma PutKeys<K(!new), V>(d: seq<(K, V)>, k: K, v: V)
    ensures forall x :: x in Keys(Put(d, k, v)) <==> x in Keys(d) || x == k
  {
    assert Keys(Put(d, k, v)) == if k in Keys(d) then Keys(d) else Keys(d) + [k];
  }

  /** Assigns every entry of `es` in turn, first to last. */
  function PutAll<K(==, !new), V>(d: seq<(K, V)>, es: seq<(K, V)>): seq<(K, V)>
  {
    if es == [] then d
    else Put(PutAll(d, es[..|es| - 1]), es[|es| - 1].0, es[|es| - 1].1)
  }

  /** Assigning entries with distinct keys to an empty dictionary keeps them all, in order. */
  lemma {:induction false} PutAllDistinct<K(!new), V>(es: seq<(K, V)>)
    requires DistinctKeys(es)
    ensures PutAll([], es) == es
  {
    if es != [] {
      var init := es[..|es| - 1];
      var last := es[|es| - 1];
      PutAllDistinct(init);
      assert last.0 !in Keys(init) by {
        forall j | 0 <= j < |init| ensures Keys(init)[j] != last.0 {
          assert init[j] == es[j];
        }
      }
      assert init + [last] == es;
    }
  }
}

=== FILE: viewer.dfy ===
/**
 * The bookkeeping of the Touchstone viewer window: the registry of loaded
 * networks and their file boxes, the parameter boxes rebuilt from the
 * enabled files and the mode box, the cache of mixed-mode conversions and
 * the plot request that turns the checked boxes into traces.
 */
module Viewer {
  import opened Wrappers
  import opened OrderedDict
  import opened Labels
  import opened FileNames
  import opened Networks

  /** A checkbox: its text and whether it is checked. */
  datatype Checkbox = Checkbox(text: string, checked: bool)

  /** `[k for k, cb in d.items() if cb.isChecked()]`. */
  function CheckedKeys(d: seq<(string, Checkbox)>): (r: seq<string>)
    ensures |r| <= |d|
    ensures forall x :: x in r <==> exists k :: 0 <= k < |d| && d[k].0 == x && d[k].1.checked
  {
    if d == [] then []
    else CheckedKeys(d[..|d| - 1]) + (if d[|d| - 1].1.checked then [d[|d| - 1].0] else [])
  }

  /** The filter keeps insertion order: later entries of the result come from later checked entries of `d`. */
  lemma {:induction false} CheckedKeysInOrder(d: seq<(string, Checkbox)>, a: nat, b: nat)
    requires a < b < |CheckedKeys(d)|
    ensures exists x, y :: (0 <= x < y < |d| && d[x].1.checked && d[y].1.checked &&
      d[x].0 == CheckedKeys(d)[a] && d[y].0 == CheckedKeys(d)[b])
  {
    var init := d[..|d| - 1];
    var r0 := CheckedKeys(init);
    assert CheckedKeys(d)[..|r0|] == r0;
    if b < |r0| {
      CheckedKeysInOrder(init, a, b);
      var x, y :| 0 <= x < y < |init| && init[x].1.checked && init[y].1.checked &&
        init[x].0 == r0[a] && init[y].0 == r0[b];
      assert d[x] == init[x] && d[y] == init[y];
    } else {
      assert CheckedKeys(d)[a] == r0[a] && r0[a] in r0;
      var x :| 0 <= x < |init| && init[x].0 == r0[a] && init[x].1.checked;
      assert d[x] == init[x];
      assert d[|d| - 1].0 == CheckedKeys(d)[b];
    }
  }

  /** The first key of the result is that of the earliest checked entry. */
  lemma {:induction false} FirstCheckedKey(d: seq<(string, Checkbox)>)
    requires CheckedKeys(d) != []
    ensures exists x :: (0 <= x < |d| && d[x].0 == CheckedKeys(d)[0] && d[x].1.checked &&
      forall y :: 0 <= y < x ==> !d[y].1.checked)
  {
    var init := d[..|d| - 1];
    if CheckedKeys(init) != [] {
      FirstCheckedKey(init);
      var x :| 0 <= x < |init| && init[x].0 == CheckedKeys(init)[0] && init[x].1.checked &&
        forall y :: 0 <= y < x ==> !init[y].1.checked;
      assert d[x] == init[x];
      assert forall y :: 0 <= y < x ==> d[y] == init[y];
    } else {
      forall y | 0 <= y < |init| ensures !d[y].1.checked {
        assert d[y] == init[y] && init[y].0 !in CheckedKeys(init);
      }
    }
  }

  // ---------------------------------------------------------------------------
  // The parameter boxes

  /** A fresh, unchecked box per label. */
  function UncheckedBoxes(labels: seq<string>): seq<(string, Checkbox)> {
    seq(|labels|, k requires 0 <= k < |labels| => (labels[k], Checkbox(labels[k], false)))
  }

  lemma UncheckedBoxesSnoc(labels: seq<string>, k: nat)
    requires k < |labels|
    ensures UncheckedBoxes(labels[..k + 1]) == UncheckedBoxes(labels[..k]) + [(labels[k], Checkbox(labels[k], false))]
  {
  }

  /** Boxes with distinct labels, each unchecked and showing its own label. */
  predicate FreshBoxes(d: seq<(string, Checkbox)>) {
    DistinctKeys(d) && forall q :: 0 <= q < |d| ==> d[q].1 == Checkbox(d[q].0, false)
  }

  /** Assigning a fresh box to a label keeps the boxes fresh. */
  lemma PutFreshBox(d: seq<(string, Checkbox)>, l: string)
    requires FreshBoxes(d)
    ensures FreshBoxes(Put(d, l, Checkbox(l, false)))
  {
    if l in Keys(d) {
      assert Put(d, l, Checkbox(l, false)) == d[IndexOf(d, l) := (l, Checkbox(l, false))];
    } else {
      assert Put(d, l, Checkbox(l, false)) == d + [(l, Checkbox(l, false))];
    }
  }

  /** Rebuilding from a list is rebuilding from all but its last label, then assigning that one. */
  lemma RebuildSnoc(labels: seq<string>)
    requires labels != []
    ensures PutAll([], UncheckedBoxes(labels))
         == Put(PutAll([], UncheckedBoxes(labels[..|labels| - 1])), labels[|labels| - 1], Checkbox(labels[|labels| - 1], false))
  {
    var k := |labels| - 1;
    UncheckedBoxesSnoc(labels, k);
    assert labels[..k + 1] == labels;
    var boxes := UncheckedBoxes(labels);
    assert boxes[..|boxes| - 1] == UncheckedBoxes(labels[..k]);
  }

  /**
   * Whatever the label list, even one with repeated labels, the rebuilt
   * boxes have distinct labels, and each box is unchecked and shows its own
   * label.
   */
  lemma {:induction false} RebuiltBoxesFresh(labels: seq<string>)
    ensures FreshBoxes(PutAll([], UncheckedBoxes(labels)))
  {
    if labels != [] {
      var init := labels[..|labels| - 1];
      RebuiltBoxesFresh(init);
      RebuildSnoc(labels);
      PutFreshBox(PutAll([], UncheckedBoxes(init)), labels[|labels| - 1]);
    }
  }

  /** The labels present after a rebuild are exactly those of the list. */
  lemma {:induction false} RebuiltBoxesLabels(labels: seq<string>)
    ensures forall l :: l in Keys(PutAll([], UncheckedBoxes(labels))) <==> l in labels
  {
    if labels != [] {
      var init := labels[..|labels| - 1];
      var l := labels[|labels| - 1];
      RebuiltBoxesLabels(init);
      RebuildSnoc(labels);
      PutKeys(PutAll([], UncheckedBoxes(init)), l, Checkbox(l, false));
      SameMembersSnoc(Keys(PutAll([], UncheckedBoxes(labels))), Keys(PutAll([], UncheckedBoxes(init))), labels);
    }
  }

  /** A list has the members of its prefix and of its last element. */
  lemma SameMembersSnoc<T>(keys: seq<T>, keys0: seq<T>, labels: seq<T>)
    requires labels != []
    requires forall x :: x in keys0 <==> x in labels[..|labels| - 1]
    requires forall x :: x in keys <==> x in keys0 || x == labels[|labels| - 1]
    ensures forall x :: x in keys <==> x in labels
  {
    assert labels == labels[..|labels| - 1] + [labels[|labels| - 1]];
  }

  /** Assigning a box per label of a list without repetitions keeps every label, in order. */
  lemma RebuildDistinctLabels(labels: seq<string>)
    requires Distinct(labels)
    ensures PutAll([], UncheckedBoxes(labels)) == UncheckedBoxes(labels)
    ensures Keys(UncheckedBoxes(labels)) == labels
  {
    var boxes := UncheckedBoxes(labels);
    UncheckedBoxesKeys(labels);
    forall i, j | 0 <= i < j < |boxes| ensures boxes[i].0 != boxes[j].0 {
      assert boxes[i].0 == labels[i] && boxes[j].0 == labels[j];
    }
    PutAllDistinct(boxes);
  }

  /** The boxes made for a list are keyed by that list, in order. */
  lemma UncheckedBoxesKeys(labels: seq<string>)
    ensures Keys(UncheckedBoxes(labels)) == labels
  {
    var keys := Keys(UncheckedBoxes(labels));
    assert |keys| == |labels|;
    forall k | 0 <= k < |labels| ensures keys[k] == labels[k] {
    }
  }

  /**
   * The parameter boxes after a rebuild: none when no file is enabled,
   * otherwise one unchecked box per label offered for the first enabled
   * file's network, assigned in the order of the label list.
   */
  function ParamCheckboxesFor<C(!new)>(files: seq<(Path, Checkbox)>, networks: map<Path, WfNetwork<C>>, modeChecked: bool)
    : seq<(string, Checkbox)>
    requires forall k :: 0 <= k < |files| ==> files[k].0 in networks
  {
    var enabled := CheckedKeys(files);
    if enabled == [] then []
    else
      assert enabled[0] in enabled;
      PutAll([], UncheckedBoxes(OfferedLabels(modeChecked, networks[enabled[0]].ports)))
  }

  /**
   * With no enabled file the rebuilt parameter set is empty. Otherwise, when
   * the first enabled network has at most nine ports, its keys are exactly the
   * offered label list, in order, and every box is unchecked.
   */
  lemma ParamCheckboxesForSpec<C(!new)>(files: seq<(Path, Checkbox)>, networks: map<Path, WfNetwork<C>>, modeChecked: bool)
    requires forall k :: 0 <= k < |files| ==> files[k].0 in networks
    ensures CheckedKeys(files) == [] ==> ParamCheckboxesFor(files, networks, modeChecked) == []
    ensures CheckedKeys(files) != [] ==>
      CheckedKeys(files)[0] in networks &&
      (networks[CheckedKeys(files)[0]].ports <= 9 ==>
        var labels := OfferedLabels(modeChecked, networks[CheckedKeys(files)[0]].ports);
        ParamCheckboxesFor(files, networks, modeChecked) == UncheckedBoxes(labels) &&
        Keys(ParamCheckboxesFor(files, networks, modeChecked)) == labels)
  {
    var enabled := CheckedKeys(files);
    if enabled != [] {
      assert enabled[0] in enabled;
      var ports := networks[enabled[0]].ports;
      if ports <= 9 {
        OfferedLabelsDistinct(modeChecked, ports);
        RebuildDistinctLabels(OfferedLabels(modeChecked, ports));
      }
    }
  }

  // ---------------------------------------------------------------------------
  // The file registry

  /**
   * The paths of `paths` that are added to a registry already holding
   * `known`: those not known and not seen earlier in `paths`, in order.
   */
  function Unseen(known: set<Path>, paths: seq<Path>): (r: seq<Path>)
    ensures Distinct(r)
    ensures forall p :: p in r <==> p in paths && p !in known
  {
    if paths == [] then []
    else
      var p := paths[|paths| - 1];
      var init := paths[..|paths| - 1];
      assert paths == init + [p];
      if p in known || p in init then Unseen(known, init) else Unseen(known, init) + [p]
  }

  /** A file box per path, checked, showing the path's display name. */
  function NewFileCheckboxes(paths: seq<Path>): seq<(Path, Checkbox)> {
    seq(|paths|, k requires 0 <= k < |paths| => (paths[k], Checkbox(DisplayName(paths[k]), true)))
  }

  // ---------------------------------------------------------------------------
  // The plot request

  /** The traces of `params`, in order, for one file; the first failing label ends the list. */
  function FileTraces<C(!new)>(lib: Library<C>, modeChecked: bool, path: Path, n: WfNetwork<C>, params: seq<string>)
    : Result<seq<Trace>, PlotError>
  {
    if params == [] then Ok([])
    else
      match FileTraces(lib, modeChecked, path, n, params[..|params| - 1])
      case Err(e) => Err(e)
      case Ok(ts) =>
        match ExtractTrace(lib, modeChecked, path, n, params[|params| - 1])
        case Err(e) => Err(e)
        case Ok(t) => Ok(ts + [t])
  }

  /** The traces of every file in turn, each with all of `params`; the first failure ends the list. */
  function AllTraces<C(!new)>(lib: Library<C>, modeChecked: bool, networks: map<Path, WfNetwork<C>>,
                              files: seq<Path>, params: seq<string>): Result<seq<Trace>, PlotError>
    requires forall p :: p in files ==> p in networks
  {
    if files == [] then Ok([])
    else
      match AllTraces(lib, modeChecked, networks, files[..|files| - 1], params)
      case Err(e) => Err(e)
      case Ok(ts) =>
        var path := files[|files| - 1];
        match FileTraces(lib, modeChecked, path, networks[path], params)
        case Err(e) => Err(e)
        case Ok(fs) => Ok(ts + fs)
  }

  /** Once a prefix of the labels fails, the whole list fails with the same error. */
  lemma {:induction false} FileTracesErrSticks<C(!new)>(lib: Library<C>, modeChecked: bool, path: Path, n: WfNetwork<C>,
                                                       params: seq<string>, k: nat)
    requires k <= |params|
    requires FileTraces(lib, modeChecked, path, n, params[..k]).Err?
    ensures FileTraces(lib, modeChecked, path, n, params) == FileTraces(lib, modeChecked, path, n, params[..k])
  {
    if k < |params| {
      var init := params[..|params| - 1];
      assert init[..k] == params[..k];
      FileTracesErrSticks(lib, modeChecked, path, n, init, k);
    } else {
      assert params[..k] == params;
    }
  }

  /** The cache once `path`, loaded as `n`, has been plotted with at least one label. */
  function CacheWith<C(!new)>(lib: Library<C>, modeChecked: bool, cache: map<Path, FourPortNetwork<C>>, path: Path, n: WfNetwork<C>)
    : (r: map<Path, FourPortNetwork<C>>)
    ensures forall p :: p in cache ==> p in r && r[p] == cache[p]
    ensures forall p :: p in r ==> p in cache || p == path
    ensures path in r <==> path in cache || UseMixedMode(modeChecked, n.ports)
  {
    if UseMixedMode(modeChecked, n.ports) && path !in cache then cache[path := lib.se2gmm(n)] else cache
  }

  /**
   * The plot loop over `files`, threading the conversion cache: a file the
   * mode applies to gets its conversion cached, if it is not cached yet,
   * before its first label is looked up; the first failing label ends the
   * run with the cache as it stands at that point.
   */
  function PlotRun<C(!new)>(lib: Library<C>, modeChecked: bool, networks: map<Path, WfNetwork<C>>,
                      cache: map<Path, FourPortNetwork<C>>, files: seq<Path>, params: seq<string>)
    : (Result<seq<Trace>, PlotError>, map<Path, FourPortNetwork<C>>)
    requires forall p :: p in files ==> p in networks
  {
    if files == [] then (Ok([]), cache)
    else
      var (r, c) := PlotRun(lib, modeChecked, networks, cache, files[..|files| - 1], params);
      if r.Err? then (r, c)
      else
        var path := files[|files| - 1];
        var n := networks[path];
        var c' := if params != [] then CacheWith(lib, modeChecked, c, path, n) else c;
        match FileTraces(lib, modeChecked, path, n, params)
        case Err(e) => (Err(e), c')
        case Ok(ts) => (Ok(r.value + ts), c')
  }

  /**
   * A plot request: rejected when no file is enabled, then when no label is
   * selected, leaving the cache alone; otherwise the plot loop.
   */
  function PlotRequest<C(!new)>(lib: Library<C>, modeChecked: bool, networks: map<Path, WfNetwork<C>>,
                          cache: map<Path, FourPortNetwork<C>>, files: seq<Path>, params: seq<string>)
    : (Result<seq<Trace>, PlotError>, map<Path, FourPortNetwork<C>>)
    requires forall p :: p in files ==> p in networks
  {
    if files == [] then (Err(NoEnabledFiles), cache)
    else if params == [] then (Err(NoSelectedParams), cache)
    else PlotRun(lib, modeChecked, networks, cache, files, params)
  }

  /** One more label: the list for a file grows by that label's trace, or fails with its error. */
  lemma FileTracesStep<C(!new)>(lib: Library<C>, modeChecked: bool, path: Path, n: WfNetwork<C>, params: seq<string>, k: nat,
                          ts: seq<Trace>)
    requires k < |params|
    requires FileTraces(lib, modeChecked, path, n, params[..k]) == Ok(ts)
    ensures var t := ExtractTrace(lib, modeChecked, path, n, params[k]);
      FileTraces(lib, modeChecked, path, n, params[..k + 1]) == if t.Ok? then Ok(ts + [t.value]) else Err(t.error)
  {
    assert params[..k + 1][..k] == params[..k];
  }

  /**
   * One more file: the run grows by that file's traces and its cache entry
   * (for a file the mode applies to), or fails with its error.
   */
  lemma PlotRunStep<C(!new)>(lib: Library<C>, modeChecked: bool, networks: map<Path, WfNetwork<C>>,
                       cache: map<Path, FourPortNetwork<C>>, files: seq<Path>, params: seq<string>, k: nat,
                       ts: seq<Trace>, c: map<Path, FourPortNetwork<C>>)
    requires forall p :: p in files ==> p in networks
    requires k < |files| && params != []
    requires PlotRun(lib, modeChecked, networks, cache, files[..k], params) == (Ok(ts), c)
    ensures var n := networks[files[k]];
      var fs := FileTraces(lib, modeChecked, files[k], n, params);
      PlotRun(lib, modeChecked, networks, cache, files[..k + 1], params)
        == (if fs.Ok? then Ok(ts + fs.value) else Err(fs.error), CacheWith(lib, modeChecked, c, files[k], n))
  {
    assert files[..k + 1][..k] == files[..k];
  }

  /** Once the run over a prefix of the files fails, the whole run ends the same way. */
  lemma {:induction false} PlotRunErrSticks<C(!new)>(lib: Library<C>, modeChecked: bool, networks: map<Path, WfNetwork<C>>,
                                               cache: map<Path, FourPortNetwork<C>>, files: seq<Path>, params: seq<string>, k: nat)
    requires forall p :: p in files ==> p in networks
    requires k <= |files|
    requires PlotRun(lib, modeChecked, networks, cache, files[..k], params).0.Err?
    ensures PlotRun(lib, modeChecked, networks, cache, files, params) == PlotRun(lib, modeChecked, networks, cache, files[..k], params)
  {
    if k < |files| {
      var init := files[..|files| - 1];
      assert init[..k] == files[..k];
      PlotRunErrSticks(lib, modeChecked, networks, cache, init, params, k);
    } else {
      assert files[..k] == files;
    }
  }

  /** The plot loop draws exactly the traces of `AllTraces`, the same list or the same first error. */
  lemma {:induction false} PlotRunTraces<C(!new)>(lib: Library<C>, modeChecked: bool, networks: map<Path, WfNetwork<C>>,
                                            cache: map<Path, FourPortNetwork<C>>, files: seq<Path>, params: seq<string>)
    requires forall p :: p in files ==> p in networks
    ensures PlotRun(lib, modeChecked, networks, cache, files, params).0 == AllTraces(lib, modeChecked, networks, files, params)
  {
    if files != [] {
      PlotRunTraces(lib, modeChecked, networks, cache, files[..|files| - 1], params);
    }
  }

  /**
   * The cache of the plot loop stays coherent, keeps every entry it had,
   * gains entries only for files of the request that the mode applies to,
   * and after a successful run with some label holds every such file.
   */
  lemma {:induction false} PlotRunCache<C(!new)>(lib: Library<C>, modeChecked: bool, networks: map<Path, WfNetwork<C>>,
                                           cache: map<Path, FourPortNetwork<C>>, files: seq<Path>, params: seq<string>)
    requires forall p :: p in files ==> p in networks
    requires CacheCoherent(lib, networks, cache)
    ensures var (r, c) := PlotRun(lib, modeChecked, networks, cache, files, params);
      CacheCoherent(lib, networks, c) &&
      (forall p :: p in cache ==> p in c && c[p] == cache[p]) &&
      (forall p :: p in c && p !in cache ==> p in files && UseMixedMode(modeChecked, networks[p].ports)) &&
      (r.Ok? && params != [] ==> forall p :: p in files && UseMixedMode(modeChecked, networks[p].ports) ==> p in c)
  {
    if files != [] {
      var init := files[..|files| - 1];
      var path := files[|files| - 1];
      PlotRunCache(lib, modeChecked, networks, cache, init, params);
      PlotRunLastCache(lib, modeChecked, networks, cache, files, params);
      var (r0, c0) := PlotRun(lib, modeChecked, networks, cache, init, params);
      if r0.Ok? && params != [] {
        CacheWithCoherent(lib, modeChecked, networks, c0, path);
      }
      assert forall p :: p in files <==> p in init || p == path;
    }
  }

  /** What the last file of a run does to the cache, and that a run succeeds only if its prefix does. */
  lemma PlotRunLastCache<C(!new)>(lib: Library<C>, modeChecked: bool, networks: map<Path, WfNetwork<C>>,
                                  cache: map<Path, FourPortNetwork<C>>, files: seq<Path>, params: seq<string>)
    requires forall p :: p in files ==> p in networks
    requires files != []
    ensures var (r0, c0) := PlotRun(lib, modeChecked, networks, cache, files[..|files| - 1], params);
      var path := files[|files| - 1];
      var (r, c) := PlotRun(lib, modeChecked, networks, cache, files, params);
      (r.Ok? ==> r0.Ok?) &&
      c == if r0.Err? || params == [] then c0 else CacheWith(lib, modeChecked, c0, path, networks[path])
  {
  }

  /** Caching the conversion of a loaded network keeps the cache coherent. */
  lemma CacheWithCoherent<C(!new)>(lib: Library<C>, modeChecked: bool, networks: map<Path, WfNetwork<C>>,
                             cache: map<Path, FourPortNetwork<C>>, path: Path)
    requires CacheCoherent(lib, networks, cache) && path in networks
    ensures CacheCoherent(lib, networks, CacheWith(lib, modeChecked, cache, path, networks[path]))
  {
  }

  /** A successful list for one file holds one trace per label, trace q being that of label q. */
  lemma {:induction false} FileTracesAt<C(!new)>(lib: Library<C>, modeChecked: bool, path: Path, n: WfNetwork<C>,
                                                params: seq<string>)
    requires FileTraces(lib, modeChecked, path, n, params).Ok?
    ensures |FileTraces(lib, modeChecked, path, n, params).value| == |params|
    ensures forall q :: 0 <= q < |params| ==>
      ExtractTrace(lib, modeChecked, path, n, params[q]) == Ok(FileTraces(lib, modeChecked, path, n, params).value[q])
  {
    if params != [] {
      var init := params[..|params| - 1];
      var last := params[|params| - 1];
      var ts := FileTraces(lib, modeChecked, path, n, init);
      var t := ExtractTrace(lib, modeChecked, path, n, last);
      assert ts.Ok? && t.Ok? && FileTraces(lib, modeChecked, path, n, params).value == ts.value + [t.value];
      FileTracesAt(lib, modeChecked, path, n, init);
      forall q | 0 <= q < |params|
        ensures ExtractTrace(lib, modeChecked, path, n, params[q]) == Ok(FileTraces(lib, modeChecked, path, n, params).value[q])
      {
        if q < |init| {
          assert params[q] == init[q];
        }
      }
    }
  }

  /**
   * A request whose enabled files all have the port count of the first one
   * (at most nine), and whose selected labels are all offered for that port
   * count, draws without error.
   */
  lemma {:induction false} UniformRequestSucceeds<C(!new)>(lib: Library<C>, modeChecked: bool, networks: map<Path, WfNetwork<C>>,
                                                          files: seq<Path>, params: seq<string>, ports: nat)
    requires forall p :: p in files ==> p in networks && networks[p].ports == ports
    requires forall q :: 0 <= q < |params| ==> params[q] in OfferedLabels(modeChecked, ports)
    ensures AllTraces(lib, modeChecked, networks, files, params).Ok?
  {
    if files != [] {
      var init := files[..|files| - 1];
      UniformRequestSucceeds(lib, modeChecked, networks, init, params, ports);
      var path := files[|files| - 1];
      FileSucceeds(lib, modeChecked, path, networks[path], params);
    }
  }

  /** Every offered label of a file's own port count yields a trace, so the whole list for that file does. */
  lemma {:induction false} FileSucceeds<C(!new)>(lib: Library<C>, modeChecked: bool, path: Path, n: WfNetwork<C>, params: seq<string>)
    requires forall q :: 0 <= q < |params| ==> params[q] in OfferedLabels(modeChecked, n.ports)
    ensures FileTraces(lib, modeChecked, path, n, params).Ok?
  {
    if params != [] {
      FileSucceeds(lib, modeChecked, path, n, params[..|params| - 1]);
      OfferedLabelsExtract(lib, modeChecked, path, n, params[|params| - 1]);
    }
  }

  // ---------------------------------------------------------------------------
  // What the window's state keeps true

  /**
   * Every loaded file has exactly one box, showing its display name, and
   * every stored network is what the library loads from its path.
   */
  ghost predicate FilesRegistered<C(!new)>(lib: Library<C>, networks: map<Path, WfNetwork<C>>, files: seq<(Path, Checkbox)>) {
    DistinctKeys(files) &&
    (forall k :: 0 <= k < |files| ==> files[k].0 in networks && files[k].1.text == DisplayName(files[k].0)) &&
    |networks| == |files| &&
    (forall p :: p in networks ==> networks[p] == lib.load(p))
  }

  /** Keys of distinct entries: as many as entries. */
  lemma {:induction false} DistinctKeysCount<V>(d: seq<(Path, V)>)
    requires DistinctKeys(d)
    ensures |set k | 0 <= k < |d| :: d[k].0| == |d|
  {
    if d != [] {
      var init := d[..|d| - 1];
      DistinctKeysCount(init);
      var s0 := set k | 0 <= k < |init| :: init[k].0;
      var s := set k | 0 <= k < |d| :: d[k].0;
      var last := d[|d| - 1].0;
      forall x | x in s0 ensures x in s {
        var k :| 0 <= k < |init| && init[k].0 == x;
        assert d[k] == init[k];
      }
      assert last in s;
      assert s == s0 + {last};
      assert last !in s0;
    }
  }

  /** In a consistent registry the paths with a box are exactly the loaded paths. */
  lemma LoadedPathsHaveBoxes<C(!new)>(lib: Library<C>, networks: map<Path, WfNetwork<C>>, files: seq<(Path, Checkbox)>)
    requires FilesRegistered(lib, networks, files)
    ensures forall p :: p in networks <==> p in Keys(files)
  {
    var boxed := set k | 0 <= k < |files| :: files[k].0;
    DistinctKeysCount(files);
    assert boxed <= networks.Keys;
    assert |networks.Keys - boxed| == 0;
    forall p | p in networks ensures p in Keys(files) {
      assert p in boxed;
      var k :| 0 <= k < |files| && files[k].0 == p;
      assert Keys(files)[k] == p;
    }
  }

  /** Every cached conversion is the library's conversion of a loaded four-port network. */
  ghost predicate CacheCoherent<C(!new)>(lib: Library<C>, networks: map<Path, WfNetwork<C>>, cache: map<Path, FourPortNetwork<C>>) {
    forall p :: p in cache ==> p in networks && networks[p].ports == 4 && cache[p] == lib.se2gmm(networks[p])
  }

  /** Parameter boxes have distinct labels and each shows its own label. */
  predicate ParamBoxesWellFormed(params: seq<(string, Checkbox)>) {
    DistinctKeys(params) && forall k :: 0 <= k < |params| ==> params[k].1.text == params[k].0
  }

  /**
   * Setting the state of an offered parameter box keeps the boxes well
   * formed and the labels unchanged; the box it changes already shows its
   * own label.
   */
  lemma SetParamBox(params: seq<(string, Checkbox)>, l: string, checked: bool)
    requires ParamBoxesWellFormed(params) && l in Keys(params)
    ensures params[IndexOf(params, l)].1.text == l
    ensures ParamBoxesWellFormed(Put(params, l, Checkbox(l, checked)))
    ensures Keys(Put(params, l, Checkbox(l, checked))) == Keys(params)
  {
    assert Put(params, l, Checkbox(l, checked)) == params[IndexOf(params, l) := (l, Checkbox(l, checked))];
  }

  /**
   * Setting the state of a loaded file's box keeps the registry consistent
   * and the paths unchanged; the box it changes already shows the file's
   * display name.
   */
  lemma SetFileBox<C(!new)>(lib: Library<C>, networks: map<Path, WfNetwork<C>>, files: seq<(Path, Checkbox)>,
                      path: Path, checked: bool)
    requires FilesRegistered(lib, networks, files) && path in Keys(files)
    ensures files[IndexOf(files, path)].1.text == DisplayName(path)
    ensures FilesRegistered(lib, networks, Put(files, path, Checkbox(DisplayName(path), checked)))
    ensures Keys(Put(files, path, Checkbox(DisplayName(path), checked))) == Keys(files)
  {
    assert Put(files, path, Checkbox(DisplayName(path), checked))
        == files[IndexOf(files, path) := (path, Checkbox(DisplayName(path), checked))];
  }

  /** One more path: the unseen list grows by that path exactly when it is neither known nor already seen. */
  lemma UnseenStep(known: set<Path>, paths: seq<Path>, k: nat)
    requires k < |paths|
    ensures Unseen(known, paths[..k + 1]) ==
      if paths[k] in known || paths[k] in paths[..k] then Unseen(known, paths[..k])
      else Unseen(known, paths[..k]) + [paths[k]]
  {
    assert paths[..k + 1][..k] == paths[..k];
  }

  /** One more new path appends its box after those of the earlier new paths, behind any boxes already present. */
  lemma NewFileCheckboxesSnoc(files: seq<(Path, Checkbox)>, paths: seq<Path>, p: Path)
    ensures files + NewFileCheckboxes(paths + [p]) == (files + NewFileCheckboxes(paths)) + [(p, Checkbox(DisplayName(p), true))]
  {
    var lhs := NewFileCheckboxes(paths + [p]);
    var rhs := NewFileCheckboxes(paths) + [(p, Checkbox(DisplayName(p), true))];
    forall i | 0 <= i < |lhs| ensures lhs[i] == rhs[i] {
      if i < |paths| {
        assert (paths + [p])[i] == paths[i];
      }
    }
    assert lhs == rhs;
  }

  /**
   * Loading a path that is not registered yet appends its box at the end
   * and keeps the registry and the cache consistent.
   */
  lemma RegisterNewFile<C(!new)>(lib: Library<C>, networks: map<Path, WfNetwork<C>>, cache: map<Path, FourPortNetwork<C>>,
                           files: seq<(Path, Checkbox)>, path: Path)
    requires FilesRegistered(lib, networks, files) && CacheCoherent(lib, networks, cache)
    requires path !in networks
    ensures path !in Keys(files)
    ensures Put(files, path, Checkbox(DisplayName(path), true)) == files + [(path, Checkbox(DisplayName(path), true))]
    ensures FilesRegistered(lib, networks[path := lib.load(path)], files + [(path, Checkbox(DisplayName(path), true))])
    ensures CacheCoherent(lib, networks[path := lib.load(path)], cache)
  {
    UnloadedPathHasNoBox(lib, networks, files, path);
    var box := Checkbox(DisplayName(path), true);
    var networks' := networks[path := lib.load(path)];
    var files' := files + [(path, box)];
    assert DistinctKeys(files') by {
      assert Put(files, path, box) == files';
    }
    forall k | 0 <= k < |files'| ensures files'[k].0 in networks' && files'[k].1.text == DisplayName(files'[k].0) {
      if k < |files| {
        assert files'[k] == files[k];
      }
    }
    assert |networks'| == |networks| + 1;
  }

  /** A path without a loaded network has no file box. */
  lemma UnloadedPathHasNoBox<C(!new)>(lib: Library<C>, networks: map<Path, WfNetwork<C>>, files: seq<(Path, Checkbox)>, path: Path)
    requires FilesRegistered(lib, networks, files)
    requires path !in networks
    ensures path !in Keys(files)
  {
    forall k | 0 <= k < |files| ensures Keys(files)[k] != path {
      assert files[k].0 in networks;
    }
  }

  /**
   * The registry after loading `paths` in turn: a path already present is
   * skipped; a new one gets the library's network and a checked box showing
   * its display name.
   */
  function LoadAll<C(!new)>(lib: Library<C>, networks: map<Path, WfNetwork<C>>, files: seq<(Path, Checkbox)>, paths: seq<Path>)
    : (map<Path, WfNetwork<C>>, seq<(Path, Checkbox)>)
  {
    if paths == [] then (networks, files)
    else
      var (n, f) := LoadAll(lib, networks, files, paths[..|paths| - 1]);
      var p := paths[|paths| - 1];
      if p in n then (n, f) else (n[p := lib.load(p)], Put(f, p, Checkbox(DisplayName(p), true)))
  }

  /**
   * Loading keeps the registry and the cache consistent, never replaces a
   * network already loaded, loads exactly the new paths, and appends one
   * box per new path, in the order of first occurrence.
   */
  lemma {:induction false} LoadAllSpec<C(!new)>(lib: Library<C>, networks: map<Path, WfNetwork<C>>,
                                          cache: map<Path, FourPortNetwork<C>>, files: seq<(Path, Checkbox)>, paths: seq<Path>)
    requires FilesRegistered(lib, networks, files) && CacheCoherent(lib, networks, cache)
    ensures var (n, f) := LoadAll(lib, networks, files, paths);
      FilesRegistered(lib, n, f) && CacheCoherent(lib, n, cache) &&
      (forall p :: p in n <==> p in networks || p in paths) &&
      (forall p :: p in networks ==> n[p] == networks[p]) &&
      f == files + NewFileCheckboxes(Unseen(networks.Keys, paths))
  {
    if paths != [] {
      var k := |paths| - 1;
      var init := paths[..k];
      var p := paths[k];
      LoadAllSpec(lib, networks, cache, files, init);
      var (n, f) := LoadAll(lib, networks, files, init);
      var seen := Unseen(networks.Keys, init);
      assert paths[..k + 1] == paths;
      UnseenStep(networks.Keys, paths, k);
      assert forall q :: q in paths <==> q in init || q == p;
      if p !in n {
        RegisterNewFile(lib, n, cache, f, p);
        NewFileCheckboxesSnoc(files, seen, p);
      }
    }
  }

  // ---------------------------------------------------------------------------
  // The window's state

  class TouchstoneViewer<C(!new)> {
    /** The RF library the window calls into. */
    const lib: Library<C>
    /** Whether "Enable Mixed-Mode" is checked. */
    var modeChecked: bool
    /** Loaded networks by file path. */
    var networks: map<Path, WfNetwork<C>>
    /** Mixed-mode conversions by file path, computed when first plotted. */
    var mixedModeNetworks: map<Path, FourPortNetwork<C>>
    /** One box per loaded file, in load order. */
    var fileCheckboxes: seq<(Path, Checkbox)>
    /** One box per offered S-parameter label. */
    var sParamCheckboxes: seq<(string, Checkbox)>

    /** The registry, cache and parameter boxes are consistent with each other and with the library. */
    ghost predicate Registered()
      reads this
    {
      FilesRegistered(lib, networks, fileCheckboxes) &&
      CacheCoherent(lib, networks, mixedModeNetworks) &&
      ParamBoxesWellFormed(sParamCheckboxes)
    }

    /** The parameter boxes are those offered for the current files and mode. */
    ghost predicate ParamsOffered()
      reads this`networks, this`fileCheckboxes, this`sParamCheckboxes, this`modeChecked
    {
      (forall k :: 0 <= k < |fileCheckboxes| ==> fileCheckboxes[k].0 in networks) &&
      Keys(sParamCheckboxes) == Keys(ParamCheckboxesFor(fileCheckboxes, networks, modeChecked))
    }

    /** Between events, the state is consistent and the parameter boxes are those offered. */
    ghost predicate Valid()
      reads this
    {
      Registered() && ParamsOffered()
    }

    /** A window with nothing loaded and the mode box unchecked. */
    constructor (lib: Library<C>)
      ensures Valid() && this.lib == lib && !modeChecked
      ensures networks == map[] && mixedModeNetworks == map[]
      ensures fileCheckboxes == [] && sParamCheckboxes == []
    {
      this.lib := lib;
      modeChecked := false;
      networks := map[];
      mixedModeNetworks := map[];
      fileCheckboxes := [];
      sParamCheckboxes := [];
    }

    /**
     * Rebuilds the parameter boxes: clears them, then adds an unchecked box
     * per label offered for the first enabled file, if there is one.
     */
    method UpdateParamCheckboxes()
      requires Registered()
      modifies this`sParamCheckboxes
      ensures Valid()
      ensures sParamCheckboxes == ParamCheckboxesFor(fileCheckboxes, networks, modeChecked)
    {
      sParamCheckboxes := [];
      var enabledFiles := CheckedKeys(fileCheckboxes);
      if enabledFiles == [] {
        assert ParamCheckboxesFor(fileCheckboxes, networks, modeChecked) == [];
        return;
      }
      assert enabledFiles[0] in enabledFiles;
      var firstNetwork := networks[enabledFiles[0]];
      var params := OfferedLabels(modeChecked, firstNetwork.ports);
      var k := 0;
      while k < |params|
        invariant 0 <= k <= |params|
        invariant sParamCheckboxes == PutAll([], UncheckedBoxes(params[..k]))
      {
        var param := params[k];
        sParamCheckboxes := Put(sParamCheckboxes, param, Checkbox(param, false));
        UncheckedBoxesSnoc(params, k);
        k := k + 1;
      }
      assert params[..k] == params;
      RebuiltBoxesFresh(params);
      assert sParamCheckboxes == ParamCheckboxesFor(fileCheckboxes, networks, modeChecked);
    }

    /**
     * Loads the files chosen in the dialog. A path already loaded keeps its
     * network and its box; every new path gets the library's network and a
     * checked box showing its display name, appended in order. Unless the
     * choice was empty, the parameter boxes are rebuilt.
     */
    method LoadFiles(filePaths: seq<Path>)
      requires Valid()
      modifies this`networks, this`fileCheckboxes, this`sParamCheckboxes
      ensures Valid()
      ensures (networks, fileCheckboxes) == LoadAll(lib, old(networks), old(fileCheckboxes), filePaths)
      ensures filePaths == [] ==> sParamCheckboxes == old(sParamCheckboxes)
      ensures filePaths != [] ==> sParamCheckboxes == ParamCheckboxesFor(fileCheckboxes, networks, modeChecked)
    {
      if filePaths == [] {
        return;
      }
      RegisterFiles(filePaths);
      LoadAllSpec(lib, old(networks), old(mixedModeNetworks), old(fileCheckboxes), filePaths);
      UpdateParamCheckboxes();
    }

    /** The loop of `LoadFiles`: each path not loaded yet is loaded and gets a checked box. */
    method RegisterFiles(filePaths: seq<Path>)
      modifies this`networks, this`fileCheckboxes
      ensures (networks, fileCheckboxes) == LoadAll(lib, old(networks), old(fileCheckboxes), filePaths)
    {
      var k := 0;
      while k < |filePaths|
        invariant 0 <= k <= |filePaths|
        invariant (networks, fileCheckboxes) == LoadAll(lib, old(networks), old(fileCheckboxes), filePaths[..k])
      {
        var filePath := filePaths[k];
        assert filePaths[..k + 1][..k] == filePaths[..k];
        if filePath !in networks {
          networks := networks[filePath := lib.load(filePath)];
          fileCheckboxes := Put(fileCheckboxes, filePath, Checkbox(DisplayName(filePath), true));
        }
        k := k + 1;
      }
      assert filePaths[..k] == filePaths;
    }

    /**
     * The user sets the box of a loaded file. When its state changes, the
     * parameter boxes are rebuilt.
     */
    method SetFileChecked(path: Path, checked: bool)
      requires Valid()
      modifies this`fileCheckboxes, this`sParamCheckboxes
      ensures Valid()
      ensures Keys(fileCheckboxes) == Keys(old(fileCheckboxes))
      ensures path in Keys(fileCheckboxes) ==> Get(fileCheckboxes, path) == Some(Checkbox(DisplayName(path), checked))
      ensures forall p :: p != path ==> Get(fileCheckboxes, p) == Get(old(fileCheckboxes), p)
      ensures old(Get(fileCheckboxes, path)) == Some(Checkbox(DisplayName(path), !checked)) ==>
        sParamCheckboxes == ParamCheckboxesFor(fileCheckboxes, networks, modeChecked)
      ensures old(Get(fileCheckboxes, path)) != Some(Checkbox(DisplayName(path), !checked)) ==>
        fileCheckboxes == old(fileCheckboxes) && sParamCheckboxes == old(sParamCheckboxes)
    {
      match Get(fileCheckboxes, path)
      case None =>
      case Some(box) =>
        SetFileBox(lib, networks, fileCheckboxes, path, checked);
        if box.checked != checked {
          fileCheckboxes := Put(fileCheckboxes, path, Checkbox(box.text, checked));
          UpdateParamCheckboxes();
        }
    }

    /** The user sets the mode box. When its state changes, the parameter boxes are rebuilt. */
    method SetModeChecked(checked: bool)
      requires Valid()
      modifies this`modeChecked, this`sParamCheckboxes
      ensures Valid() && modeChecked == checked
      ensures old(modeChecked) != checked ==> sParamCheckboxes == ParamCheckboxesFor(fileCheckboxes, networks, modeChecked)
      ensures old(modeChecked) == checked ==> sParamCheckboxes == old(sParamCheckboxes)
    {
      if modeChecked != checked {
        modeChecked := checked;
        UpdateParamCheckboxes();
      }
    }

    /** The user sets the box of an offered parameter; nothing else reacts. */
    method SetParamChecked(param: string, checked: bool)
      requires Valid()
      modifies this`sParamCheckboxes
      ensures Valid()
      ensures Keys(sParamCheckboxes) == Keys(old(sParamCheckboxes))
      ensures param in Keys(sParamCheckboxes) ==> Get(sParamCheckboxes, param) == Some(Checkbox(param, checked))
      ensures forall l :: l != param ==> Get(sParamCheckboxes, l) == Get(old(sParamCheckboxes), l)
    {
      match Get(sParamCheckboxes, param)
      case None =>
      case Some(box) =>
        SetParamBox(sParamCheckboxes, param, checked);
        sParamCheckboxes := Put(sParamCheckboxes, param, Checkbox(box.text, checked));
    }

    /**
     * The plot request. Rejected when no file is enabled, then when no
     * parameter is selected; otherwise the traces of every enabled file with
     * every selected label, in order, or the first error.
     */
    method PlotSParam() returns (r: Result<seq<Trace>, PlotError>)
      requires Registered()
      modifies this`mixedModeNetworks
      ensures Registered()
      ensures (r, mixedModeNetworks) == PlotRequest(lib, modeChecked, networks, old(mixedModeNetworks),
                                                    CheckedKeys(fileCheckboxes), CheckedKeys(sParamCheckboxes))
    {
      var enabledFiles := CheckedKeys(fileCheckboxes);
      var selectedParams := CheckedKeys(sParamCheckboxes);
      if enabledFiles == [] {
        return Err(NoEnabledFiles);
      }
      if selectedParams == [] {
        return Err(NoSelectedParams);
      }
      r := PlotFiles(enabledFiles, selectedParams);
      PlotRunCache(lib, modeChecked, networks, old(mixedModeNetworks), enabledFiles, selectedParams);
    }

    /** The loop of `PlotSParam` over the enabled files, stopping at the first error. */
    method PlotFiles(enabledFiles: seq<Path>, selectedParams: seq<string>) returns (r: Result<seq<Trace>, PlotError>)
      requires forall p :: p in enabledFiles ==> p in networks && networks[p] == lib.load(p)
      requires CacheCoherent(lib, networks, mixedModeNetworks)
      requires selectedParams != []
      modifies this`mixedModeNetworks
      ensures (r, mixedModeNetworks) == PlotRun(lib, modeChecked, networks, old(mixedModeNetworks), enabledFiles, selectedParams)
    {
      ghost var cache0 := mixedModeNetworks;
      var traces: seq<Trace> := [];
      var fi := 0;
      while fi < |enabledFiles|
        invariant 0 <= fi <= |enabledFiles|
        invariant PlotRun(lib, modeChecked, networks, cache0, enabledFiles[..fi], selectedParams) == (Ok(traces), mixedModeNetworks)
        invariant CacheCoherent(lib, networks, mixedModeNetworks)
      {
        var filePath := enabledFiles[fi];
        PlotRunStep(lib, modeChecked, networks, cache0, enabledFiles, selectedParams, fi, traces, mixedModeNetworks);
        var fileTraces := PlotFile(filePath, selectedParams);
        if fileTraces.Err? {
          PlotRunErrSticks(lib, modeChecked, networks, cache0, enabledFiles, selectedParams, fi + 1);
          return Err(fileTraces.error);
        }
        PlotRunCache(lib, modeChecked, networks, cache0, enabledFiles[..fi + 1], selectedParams);
        traces := traces + fileTraces.value;
        fi := fi + 1;
      }
      assert enabledFiles[..fi] == enabledFiles;
      return Ok(traces);
    }

    /**
     * Converts the file at `filePath` to mixed mode, from a fresh read of
     * the file, unless its conversion is already cached.
     */
    method CacheConversion(filePath: Path)
      requires filePath in networks && networks[filePath] == lib.load(filePath) && networks[filePath].ports == 4
      requires filePath in mixedModeNetworks ==> mixedModeNetworks[filePath] == lib.se2gmm(networks[filePath])
      modifies this`mixedModeNetworks
      ensures mixedModeNetworks == if filePath in old(mixedModeNetworks) then old(mixedModeNetworks)
                                   else old(mixedModeNetworks)[filePath := lib.se2gmm(networks[filePath])]
      ensures filePath in mixedModeNetworks && mixedModeNetworks[filePath] == lib.se2gmm(networks[filePath])
    {
      if filePath !in mixedModeNetworks {
        mixedModeNetworks := mixedModeNetworks[filePath := lib.se2gmm(lib.load(filePath))];
      }
    }

    /**
     * The traces of `params` for one loaded file, in order, or the first
     * error. When the mode applies to the file, its conversion is computed
     * before the first label is looked up, unless it is cached already.
     */
    method PlotFile(filePath: Path, params: seq<string>) returns (r: Result<seq<Trace>, PlotError>)
      requires filePath in networks && networks[filePath] == lib.load(filePath)
      requires CacheCoherent(lib, networks, mixedModeNetworks)
      requires params != []
      modifies this`mixedModeNetworks
      ensures r == FileTraces(lib, modeChecked, filePath, networks[filePath], params)
      ensures mixedModeNetworks == CacheWith(lib, modeChecked, old(mixedModeNetworks), filePath, networks[filePath])
    {
      var network := networks[filePath];
      var useMixed := UseMixedMode(modeChecked, network.ports);
      var name := DisplayName(filePath);
      ghost var before := mixedModeNetworks;
      ghost var after := CacheWith(lib, modeChecked, before, filePath, network);
      assert useMixed ==> filePath in before ==> before[filePath] == lib.se2gmm(network);
      var traces: seq<Trace> := [];
      var pi := 0;
      while pi < |params|
        invariant 0 <= pi <= |params|
        invariant FileTraces(lib, modeChecked, filePath, network, params[..pi]) == Ok(traces)
        invariant mixedModeNetworks == if pi == 0 then before else after
        invariant useMixed ==> filePath in mixedModeNetworks ==> mixedModeNetworks[filePath] == lib.se2gmm(network)
      {
        var param := params[pi];
        FileTracesStep(lib, modeChecked, filePath, network, params, pi, traces);
        var source := network;
        if useMixed {
          CacheConversion(filePath);
          source := mixedModeNetworks[filePath];
        }
        var trace := TraceOf(lib, name, network.freqs, source, useMixed, param);
        if trace.Err? {
          FileTracesErrSticks(lib, modeChecked, filePath, network, params, pi + 1);
          return Err(trace.error);
        }
        traces := traces + [trace.value];
        pi := pi + 1;
      }
      assert params[..pi] == params;
      return Ok(traces);
    }
  }
}

=== FILE: wrappers.dfy ===
/** Option and Result values for lookups that may miss and operations that may fail. */
module Wrappers {
  datatype Option<T> = None | Some(value: T)

  datatype Result<T, E> = Ok(value: T) | Err(error: E)
}
